=== FILE: README.md ===
# Vehicle-rental booking service — Dafny model

This project models the service layer of a vehicle-rental backend written in TypeScript on Express and PostgreSQL:

- **Booking service.** `createBooking`, `getBookings` and `updateBooking` run over an in-memory image of the `users`, `vehicles` and `bookings` tables (module `Bookings`).
- **Lifecycle rule.** A vehicle is `booked` exactly when one `active` booking holds it. Module `Lifecycle` checks this rule against the service as written. It also defines a guarded status transition that keeps the rule (see Findings).
- **Partial-update builder.** `updateSingleVehicle` and `updateUser` share it (modules `PartialUpdate`, `Vehicles`, `Users`). It filters payload keys against a whitelist, renders the `SET` clause as `key = $i` pieces joined by `", "`, and binds the values followed by the row id.
- **`Auth(requiredRole)` middleware** (module `AuthGate`). It extracts the bearer token, verifies it, and decides between 401, 403 and passing the request on.
- **Credential checks** (module `Credentials`). These are the `createUser` password rule and the `login` branching.

Supporting modules:

- `Wrappers` defines `Option` and `Result`.
- `Text` models JavaScript's `split`/`join`, the decimal rendering of placeholder numbers, and `Number(text)` for URL-parameter ids.
- `Schema` defines the table rows and the status and role strings.

Modelling choices:

- **Pure functions.** Every operation returns a `Result`. A failure carries no store, so a rejected request writes nothing.
- **Ids.** Bookings and vehicles are maps keyed by id. The `users` table is a sequence in row order, because `login` takes `rows[0]` of a lookup by email. User ids are taken to be the `users` table's primary key, and so unique: `Schema.UserById` returns the first row with the id, which under that key is the only one.
- **New booking ids.** A new booking takes the store's `nextBookingId`, which plays the table's serial.
- **Dates and prices.** Dates are integer day numbers. A `YYYY-MM-DD` string parses to UTC midnight, so the source's day difference is a whole number. Prices are integers.
- **Oracles.** bcrypt and JWT are function-typed parameters: `hash`, `compare`, `sign` and `verify`.
- **Principal.** The booking functions take the caller's `(userId, role)` explicitly.

The service code has no transactions or row locks, no expiry sweep, and no status check before a transition, and the model has none either: `updateBooking` never looks at the current status, accepts any status from a non-customer, and frees the vehicle only on an admin's `"returned"`.

## Model

| member | source | states |
|---|---|---|
| Bookings.CreateBooking | src/modules/bookings/bookings.service.ts:4-54 | Checks run in order: vehicle missing, then not `available`, then `end - start <= 0` days. Each failure has its own message. Success happens exactly when all three checks pass. The new booking is `active`, priced at daily rate × days, and stored under the store's serial id. For a store whose ids are all below the serial, that id is fresh and every other booking is kept. The vehicle becomes `booked` with nothing else changed, and no other vehicle changes. |
| Bookings.SortDescending | src/modules/bookings/bookings.service.ts:66 | `ORDER BY id DESC`. The result is strictly decreasing and holds exactly the given ids. |
| Bookings.KeepVisible | src/modules/bookings/bookings.service.ts:63-87 | The join/where filter. It keeps exactly the visible ids and preserves a strictly descending order. |
| Bookings.RowOfColumns | src/modules/bookings/bookings.service.ts:59-84 | An admin's row is the whole booking plus the name and email of a user whose id is the booking's customer, and the vehicle's name and registration number. Any other role's row is the booking's vehicle, dates, price and status plus the vehicle's name, registration number and type. |
| Bookings.GetBookings | src/modules/bookings/bookings.service.ts:56-94 | Rows come in strictly descending id order. Every row is visible to the caller and carries that role's columns. Every visible booking appears. Admins see every booking whose customer and vehicle both join. Any other role sees exactly its own bookings whose vehicle joins. |
| Bookings.UpdateBooking | src/modules/bookings/bookings.service.ts:96-139 | Checks run in order: non-numeric id, missing booking, a customer who does not own the booking (whatever the status), an owning customer asking for anything but `cancelled`. Success happens exactly when none applies. The status is then overwritten whatever it was, and no other booking or column changes. The vehicle becomes `available` only for an admin's `returned`; every other vehicle state is unchanged. |
| Bookings.NonNumericBookingIdRefused | src/modules/bookings/bookings.service.ts:102-103 | An id that `Number` reads as NaN fails with "Invalid booking ID", whatever the store, status or caller. |
| Bookings.ReleaseVehicle | src/modules/bookings/bookings.service.ts:121-126 | Only the named vehicle's availability changes, and a missing vehicle stays missing. |
| Lifecycle.CreateBookingKeepsConsistent | src/modules/bookings/bookings.service.ts:12-45 | A successful `createBooking` keeps the rule that a vehicle is booked exactly when one active booking holds it. |
| Lifecycle.SecondBookingRefused | src/modules/bookings/bookings.service.ts:13-45 | In the store right after one successful booking, any request for that vehicle fails with "Vehicle is not available". |
| Lifecycle.CancelStrandsVehicle | src/modules/bookings/bookings.service.ts:113-136 | An owner's cancellation of an active booking succeeds. The vehicle then stays `booked` with no active booking, and right after the cancellation every booking request for it is refused with "Vehicle is not available". This lasts until an admin marks any booking on that vehicle `returned`. |
| Lifecycle.CancelledFreedByAdminReturn | src/modules/bookings/bookings.service.ts:113-136 | One way out of that state: an admin's `returned` on the cancelled booking succeeds even though the booking is no longer active. It frees the vehicle, and a new booking for it then succeeds. That recovery path is itself the missing status check of the second finding. |
| Lifecycle.AdminReturnFreesVehicle | src/modules/bookings/bookings.service.ts:105-136 | An admin's `returned` on any existing booking, whatever its status, succeeds and makes that booking's vehicle `available`, and a booking request for the vehicle then succeeds. So a stranded vehicle is freed by a return of any of its bookings. |
| Lifecycle.RepeatReturnDoubleBooks | src/modules/bookings/bookings.service.ts:105-136 | An admin's `returned` on a booking that is no longer active succeeds. It frees a vehicle another active booking holds, so a new booking for it succeeds and two active bookings share the vehicle. |
| Lifecycle.DoubleBookingRun | src/modules/bookings/bookings.service.ts:4-139 | A concrete sequence of five service calls starts from a consistent store and ends with two active bookings on one vehicle. |
| Lifecycle.UpdateBookingGuarded | src/modules/bookings/bookings.service.ts:96-139 | The transition with its lifecycle guards. It uses the same id, lookup and customer checks, then refuses a status other than `cancelled`/`returned` and a booking that is not `active`. On success the booking was active and either outcome frees the vehicle. |
| Lifecycle.GuardedUpdateKeepsConsistent | src/modules/bookings/bookings.service.ts:121-136 | A successful guarded transition keeps the booked-exactly-when-held rule. |
| Lifecycle.GuardedAgreesOnAdminReturn | src/modules/bookings/bookings.service.ts:121-136 | On an active booking, an admin's `returned` gives the same result under the guarded and the as-written transition. |
| Lifecycle.GuardedRepeatRefused | src/modules/bookings/bookings.service.ts:128-136 | Repeating a successful guarded transition fails because the booking is no longer active. |
| PartialUpdate.FilterAllowed | src/modules/vehicles/vehicles.service.ts:69 | An entry survives exactly when it is in the payload and its key is allowed. |
| PartialUpdate.FilterAllowedConcat | src/modules/vehicles/vehicles.service.ts:69 | Filtering distributes over concatenation, so survivors keep their payload order. |
| PartialUpdate.FilterAllowedNonEmpty | src/modules/vehicles/vehicles.service.ts:69-70 | The filter keeps something exactly when some payload key is allowed. |
| PartialUpdate.BuildUpdate | src/modules/vehicles/vehicles.service.ts:72-82 | The parameter list has n+1 entries: the i-th filtered value at position i, then the row id. |
| PartialUpdate.PlaceholderRoundTrip | src/modules/vehicles/vehicles.service.ts:72 | The placeholder `$p` reads back as position p. |
| PartialUpdate.AssignmentReadsBack | src/modules/vehicles/vehicles.service.ts:72 | `key = $p` reads back as column `key` and position p, and contains no comma. |
| PartialUpdate.SetClauseReadsBack | src/modules/vehicles/vehicles.service.ts:72-82 | Split at `", "`, the SET clause gives the n filtered keys in order. Piece i binds `$(i+1)`, whose parameter is that key's value. The fixed assignments follow. The WHERE placeholder is `$(n+1)`, bound to the row id. |
| Vehicles.GetAllVehicles | src/modules/vehicles/vehicles.service.ts:34-47 | The message is "Vehicles retrieved successfully" exactly when rows exist, and "No vehicles found" exactly when none do. The data is the rows. |
| Vehicles.UpdateSingleVehicle | src/modules/vehicles/vehicles.service.ts:54-84 | Checks run in order: non-numeric id, unknown vehicle, no allowed key. Success happens exactly when none applies. The SET text is then the joined assignments followed by `, updated_at = NOW()`, and the parameters are the values then the id. |
| Vehicles.NonNumericVehicleIdRefused | src/modules/vehicles/vehicles.service.ts:55-56 | An id that `Number` reads as NaN fails with "Invalid vehicle ID", whatever the table or payload. |
| Vehicles.VehicleUpdateReadsBack | src/modules/vehicles/vehicles.service.ts:61-82 | Each SET piece names an allowed column, in payload order, bound to its own value. `updated_at = NOW()` comes last. The vehicle id sits at `$(n+1)`. |
| Vehicles.StatementReadsBack | src/modules/vehicles/vehicles.service.ts:72-82 | The statement built from allowed, plain entries reads back as those entries' columns in order, each bound to its own value, then `updated_at = NOW()`, then the id at `$(n+1)`. |
| Users.GetUsers | src/modules/users/user.service.ts:3-11 | There is one profile per row, carrying id, name, email, phone and role. |
| Users.GetUsersIgnoresPasswords | src/modules/users/user.service.ts:4-6 | Tables that differ only in passwords list identically. |
| Users.UpdateUser | src/modules/users/user.service.ts:19-45 | Checks run in order: non-numeric id, then no allowed key. There is no existence check. On success the statement returns exactly id, name, email, phone and role, never `password`. The parameters are the values then the id. |
| Users.NonNumericUserIdRefused | src/modules/users/user.service.ts:20-21 | An id that `Number` reads as NaN fails with "Invalid user ID", whatever the payload. |
| Users.UserUpdateReadsBack | src/modules/users/user.service.ts:23-43 | Each SET piece names one of name/email/phone/role, never `password`, in payload order, bound to its own value. The user id sits at `$(n+1)`. |
| Users.StatementReadsBack | src/modules/users/user.service.ts:31-43 | The statement built from allowed, plain entries reads back as those entries' columns in order, none of them `password`, each bound to its own value, then the id at `$(n+1)`. |
| AuthGate.BearerToken | src/middleware/Auth.ts:8-15 | A token is present only when the header exists and contains a space. The token is then non-empty and contains no space. |
| AuthGate.BearerTokenOfHeader | src/middleware/Auth.ts:8 | In `<scheme> <token>` or `<scheme> <token> <more>`, the token extracted is exactly `<token>`. |
| AuthGate.NoTokenWithoutSecondField | src/middleware/Auth.ts:8-15 | A header with no space, or with an empty field after its first space, yields no token. |
| AuthGate.Auth | src/middleware/Auth.ts:5-32 | A missing token gives 401 "Authorization token missing". A failed verification gives 401 "Invalid or expired token". A role that is present but outside the list gives 403. Otherwise the request passes with `req.user` set to the decoded claims, and passing happens exactly in that case. |
| AuthGate.BearerHeaderPasses | src/middleware/Auth.ts:8-24 | `Bearer <token>`, where the token is non-empty with no space and verifies to claims whose role is listed, passes with `req.user` set to those claims. |
| AuthGate.WiderRoleListStillPasses | src/middleware/Auth.ts:17-24 | A request that passes for a role list passes, with the same user, for any list containing it. |
| AuthGate.NoRoleListPassesVerified | src/middleware/Auth.ts:17-24 | Without a role list, a request passes exactly when its token is present and verifies. |
| Credentials.CreateUser | src/modules/auth/auth.service.ts:8-22 | A password that is missing, not a string, or shorter than 6 characters is refused, and only such a password is refused. Otherwise exactly one row is appended, with the payload's fields and the password's hash, not the plaintext. |
| Credentials.ClaimsOf | src/modules/auth/auth.service.ts:38 | The signed claims name the same id, email and role as the summary returned beside the token. |
| Credentials.LoginIssuesFor | src/modules/auth/auth.service.ts:25-40 | A successful login belongs to the row the email lookup finds, whose stored hash matched. Its token is signed over that row's claims and its summary is that row's profile. |
| Credentials.Login | src/modules/auth/auth.service.ts:25-41 | An unknown email gives "User not found". For the first row with that email, a failed compare gives "Invalid credentials". A successful compare gives a token signed over that row's id, email and role, plus a summary of id, name, email, phone and role. |
| Credentials.SignUpThenLogin | src/modules/auth/auth.service.ts:8-41 | After signing up with a fresh email, logging in with the same password returns the new row's token and summary, provided bcrypt's compare accepts a password against its own hash. |
| Credentials.LoginTokenPassesAuth | src/modules/auth/auth.service.ts:38-40 | The login token sent as `Bearer <token>` passes `Auth` for a list holding the user's role, with `req.user` set to the signed claims. |
| Text.Join | src/modules/vehicles/vehicles.service.ts:72 | `join` of no pieces is the empty string, and the first piece starts the result. |
| Text.JoinLength | src/modules/vehicles/vehicles.service.ts:72 | A join is as long as its pieces together plus one separator per gap. |
| Text.Split | src/middleware/Auth.ts:8 | `split` always yields at least one piece. With a one-character separator, no piece contains it. |
| Text.JoinSplit | src/modules/vehicles/vehicles.service.ts:72 | Joining the pieces of a split with the same separator gives back the string. |
| Text.SplitJoin | src/modules/vehicles/vehicles.service.ts:72 | Splitting a join gives back the pieces when no piece contains the separator's first character. |
| Text.ParseNumber | src/modules/bookings/bookings.service.ts:102-103 | `Number` then `isNaN`: an input without a leading `-` never parses negative, and anything judged NaN is a non-empty non-numeral. |
| Text.ParseNumberNaN | src/modules/bookings/bookings.service.ts:102-103 | `isNaN` holds exactly for an input that is not empty, not a numeral, and not a sign followed by a numeral. |
| Text.ParseSignedNumeral | src/modules/bookings/bookings.service.ts:102-103 | A `-` or `+` followed by a numeral reads as that numeral's value, negated for `-`. |
| Text.ParseNumberExamples | src/modules/bookings/bookings.service.ts:102-103 | `"abc"`, `"-"`, `"+"` and `"1a"` are NaN. `"+5"` reads as 5, `"-007"` as -7 and `"42"` as 42. |
| Text.ParseNumeral | src/modules/bookings/bookings.service.ts:102-103 | The empty string reads as 0, and a numeral of decimal digits as the number it denotes, so `"007"` is 7. |
| Text.IntToStringParses | src/modules/vehicles/vehicles.service.ts:55-56 | The decimal rendering of any integer parses back to it. |
| Schema.UserById | src/modules/bookings/bookings.service.ts:64 | The join finds a row with that id exactly when one exists. |
| Schema.EmailPosition | src/modules/auth/auth.service.ts:26-27 | This is the first row with the email, or the end of the table when no row has it. |
| Schema.UserByEmail | src/modules/auth/auth.service.ts:26-27 | The lookup finds nothing exactly when no row has the email. Otherwise it returns a row with that email that no earlier row shares. |

## Findings

| source | as written | input that shows it | evidently intended | confidence | as-written member | corrected member |
|---|---|---|---|---|---|---|
| src/modules/bookings/bookings.service.ts:113-136 | A successful cancellation leaves the vehicle `booked`. Only an admin's `returned` frees it. | A customer cancels their own active booking on vehicle 1. Vehicle 1 stays `booked` with no active booking. Every `createBooking` for it fails with "Vehicle is not available" until an admin marks any booking on that vehicle `returned`. That recovery works only because `returned` is applied without a status check, which is the second finding. | Cancelling a booking releases its vehicle. | medium, not executed | Lifecycle.CancelStrandsVehicle | Lifecycle.UpdateBookingGuarded |
| src/modules/bookings/bookings.service.ts:105-136 | The booking's current status is never checked before the write. | Booking 1 on vehicle 1 is returned, then booking 2 is made for vehicle 1. An admin sends `returned` for booking 1 again, which frees vehicle 1 while booking 2 is active. A third booking then succeeds, leaving two active bookings on vehicle 1 (`Lifecycle.DoubleBookingRun`). | Only an active booking can be cancelled or returned. | high, not executed | Lifecycle.RepeatReturnDoubleBooks | Lifecycle.UpdateBookingGuarded |

`Lifecycle.UpdateBookingGuarded` is the corrected transition. The lifecycle rule is proved for it (`Lifecycle.GuardedUpdateKeepsConsistent`). `Bookings.UpdateBooking` remains the model of the code as it stands.

## Left out

- Transactions, row locks and a background expiry sweep: the service code has none. Its queries run one after another with no transaction, and nothing here invents concurrency.
- Controllers, routers, `app.ts`, route wiring and configuration loading: they shape HTTP responses (every service error becomes a 500) and wire routes, with no business logic.
- SQL execution. Tables are maps and sequences, joins are key lookups, and the `UPDATE` statements that `updateSingleVehicle` and `updateUser` build are produced as text and parameters, not applied to rows.
- `createVehicle`, `getSingleVehicle`, `deleteSingleVehicleByAdmin`, `getUserById`, `deleteUser`: single queries with no logic. Because deletions are not modelled, the lifecycle rule ignores vehicles or users removed underneath bookings.
- `created_at` / `updated_at` timestamps and `NOW()`: only the literal `updated_at = NOW()` assignment text is modelled.
- Bookings.CreateBooking: takes dates as day numbers. A malformed date string, where JavaScript's `Date` gives NaN, `NaN <= 0` is false and the insert is attempted, is not modelled. Neither is a date with a time part that yields a fractional day count. Missing payload fields are not modelled either.
- Text.ParseNumber: treats surrounding whitespace, fractions, exponents, hex/octal/binary literals and `Infinity` as NaN, whereas `Number` accepts them. For such ids the source reaches the lookup instead of reporting an invalid id. It also keeps every numeral exact, whereas `Number` rounds integers above 2^53 to the nearest double.
- Prices and day counts are integers, so floating-point arithmetic and Postgres `numeric` conversion are not modelled.
- bcrypt and JWT internals: `hash`, `compare`, `sign` and `verify` are parameters. Token expiry is whatever `verify` rejects.
- AuthGate.Auth: a decoded role that is not a string, a string payload from `jwt.verify`, and an exception thrown by `next()` (which the same `catch` would turn into a 401) are not modelled. An empty role stands for a missing or falsy one.
- Credentials.CreateUser: the 6-character minimum counts Dafny characters (Unicode scalar values), whereas JavaScript's `length` counts UTF-16 code units. Any uniqueness constraint on `email` belongs to the schema, which is not part of this model, so `login` simply takes the first matching row.
- Schema.UserById: the model does not enforce that user ids are unique. If two rows shared an id, the SQL join in `getBookings` would give one booking row per matching user, whereas `UserById` gives one row for the first match.
- Users.GetUsers: `SELECT` without `ORDER BY` has no defined order. The model returns table order.
- Cross-file wiring mismatches are not modelled; the principal `(userId, role)` is passed explicitly instead. These are: a controller calling `updateUser` with a different argument list, the booking controller reading `req.user.id` while tokens carry `userId`, and `src/modules/user/user.routes.ts` importing a `./user.controller` that is not part of this model.

=== FILE: auth_gate.dfy ===
/**
 * The `Auth(requiredRole)` middleware: bearer-token extraction, verification
 * and the role check, deciding between a 401, a 403 and passing the request on.
 * Verification is the `verify` oracle: `Some(claims)` when `jwt.verify`
 * accepts the token, `None` when it throws.
 */
module AuthGate {
  import opened Wrappers
  import Text

  /** The decoded token payload; an empty `role` stands for a token without a truthy role. */
  datatype Claims = Claims(userId: int, email: string, role: string)

  /** Exactly one of: a response with this status and message, or `next()` with `req.user` set. */
  datatype Outcome = Reject(status: int, message: string) | Next(user: Claims)

  const TokenMissing := "Authorization token missing"
  const TokenInvalid := "Invalid or expired token"
  const Forbidden := "Access forbidden: insufficient permissions"

  /**
   * The second space-separated field of the Authorization header, if any; an
   * absent header, an absent field and an empty field all count as missing.
   */
  function BearerToken(header: Option<string>): (token: Option<string>)
    ensures token.Some? ==> header.Some? && ' ' in header.value
    ensures token.Some? ==> token.value != "" && ' ' !in token.value
  {
    match header
    case None => None
    case Some(h) =>
      var fields := Text.Split(h, " ");
      if ' ' !in h then
        Text.SplitWithoutSeparator(h, " ");
        None
      else if |fields| >= 2 && fields[1] != "" then Some(fields[1])
      else None
  }

  /** Whether a decoded role gets past the required-role list. */
  predicate RoleAdmitted(requiredRole: Option<seq<string>>, role: string) {
    role == "" || requiredRole.None? || role in requiredRole.value
  }

  /** `Auth(requiredRole)(req, res, next)`. */
  function Auth(requiredRole: Option<seq<string>>, header: Option<string>, verify: string -> Option<Claims>): (r: Outcome)
    ensures BearerToken(header).None? ==> r == Reject(401, TokenMissing)
    ensures BearerToken(header).Some? && verify(BearerToken(header).value).None? ==> r == Reject(401, TokenInvalid)
    ensures BearerToken(header).Some? && verify(BearerToken(header).value).Some? ==>
      var c := verify(BearerToken(header).value).value;
      && (c.role != "" && requiredRole.Some? && c.role !in requiredRole.value ==> r == Reject(403, Forbidden))
      && (RoleAdmitted(requiredRole, c.role) ==> r == Next(c))
    ensures r.Next? <==>
      && BearerToken(header).Some?
      && verify(BearerToken(header).value).Some?
      && RoleAdmitted(requiredRole, verify(BearerToken(header).value).value.role)
  {
    match BearerToken(header)
    case None => Reject(401, TokenMissing)
    case Some(token) =>
      match verify(token)
      case None => Reject(401, TokenInvalid)
      case Some(c) =>
        if c.role != "" && requiredRole.Some? && c.role !in requiredRole.value then Reject(403, Forbidden)
        else Next(c)
  }

  /**
   * The token is the text between the first and the second space:
   * `<scheme> <token>` or `<scheme> <token> <anything>`.
   */
  lemma {:induction false} BearerTokenOfHeader(scheme: string, token: string, tail: string)
    requires ' ' !in scheme && ' ' !in token && token != ""
    requires tail == "" || tail[0] == ' '
    ensures BearerToken(Some(scheme + " " + token + tail)) == Some(token)
  {
    var h := scheme + " " + token + tail;
    assert h == scheme + " " + (token + tail);
    Text.SplitAfterPiece(scheme, " ", token + tail);
    if tail == "" {
      assert token + tail == token;
      Text.SplitWithoutSeparator(token, " ");
    } else {
      assert token + tail == token + " " + tail[1..];
      Text.SplitAfterPiece(token, " ", tail[1..]);
    }
    assert ' ' in h by { assert h[|scheme|] == ' '; }
  }

  /** `Bearer <token>` with a token that verifies to claims whose role is listed passes, carrying those claims. */
  lemma BearerHeaderPasses(token: string, c: Claims, roles: seq<string>, verify: string -> Option<Claims>)
    requires token != "" && ' ' !in token
    requires verify(token) == Some(c)
    requires c.role in roles
    ensures Auth(Some(roles), Some("Bearer " + token), verify) == Next(c)
  {
    BearerTokenOfHeader("Bearer", token, "");
    assert "Bearer" + " " + token + "" == "Bearer " + token;
  }

  /** A header without a space, or with nothing between its first and second space, carries no token. */
  lemma {:induction false} NoTokenWithoutSecondField(scheme: string, rest: string)
    requires ' ' !in scheme
    requires rest == "" || rest[0] == ' '
    ensures BearerToken(Some(scheme)) == None
    ensures BearerToken(Some(scheme + " " + rest)) == None
  {
    Text.SplitAfterPiece(scheme, " ", rest);
    if rest != "" {
      assert rest == "" + " " + rest[1..];
      Text.SplitAfterPiece("", " ", rest[1..]);
    }
    var fields := Text.Split(scheme + " " + rest, " ");
    assert fields[1] == "";
  }

  /** Widening the required-role list never turns a passing request away, nor changes `req.user`. */
  lemma WiderRoleListStillPasses(roles: seq<string>, wider: seq<string>, header: Option<string>, verify: string -> Option<Claims>)
    requires forall x :: x in roles ==> x in wider
    requires Auth(Some(roles), header, verify).Next?
    ensures Auth(Some(wider), header, verify) == Auth(Some(roles), header, verify)
  {
  }

  /** Without a required-role list every verified token passes, whatever its role. */
  lemma NoRoleListPassesVerified(header: Option<string>, verify: string -> Option<Claims>)
    ensures Auth(None, header, verify).Next? <==>
      BearerToken(header).Some? && verify(BearerToken(header).value).Some?
  {
  }
}

=== FILE: bookings.dfy ===
/**
 * The booking service: `createBooking`, `getBookings` and `updateBooking`,
 * over an in-memory image of the `users`, `vehicles` and `bookings` tables.
 * Each operation is a pure function from the store to a `Result`; a failure
 * carries no store, so a rejected request writes nothing.
 */
module Bookings {
  import opened Wrappers
  import opened Schema
  import Text

  /**
   * The tables the booking service touches. `nextBookingId` is the next value
   * of the serial that numbers `bookings` rows.
   */
  datatype Store = Store(
    users: seq<User>,
    vehicles: map<int, Vehicle>,
    bookings: map<int, Booking>,
    nextBookingId: int)

  /** Every booking id was drawn from the serial, so the serial's next value is fresh. */
  predicate WellFormed(s: Store) {
    forall id :: id in s.bookings ==> id < s.nextBookingId
  }

  datatype BookingError =
    | VehicleNotFound
    | VehicleNotAvailable
    | InvalidDateRange
    | InvalidBookingId
    | BookingNotFound
    | NotOwner
    | CustomerMayOnlyCancel
      // The two below are raised only by the corrected transition in module Lifecycle.
    | InvalidStatus
    | BookingNotActive

  /** The text of the `Error` each failure throws. */
  function Message(e: BookingError): string {
    match e
    case VehicleNotFound => "Vehicle not found"
    case VehicleNotAvailable => "Vehicle is not available"
    case InvalidDateRange => "Invalid rent date range"
    case InvalidBookingId => "Invalid booking ID"
    case BookingNotFound => "Booking not found"
    case NotOwner => "You are not allowed to modify this booking"
    case CustomerMayOnlyCancel => "Customers can only cancel bookings"
    case InvalidStatus => "Invalid booking status"
    case BookingNotActive => "Booking is not active"
  }

  // ---------------------------------------------------------------------------
  // createBooking
  // ---------------------------------------------------------------------------

  /** What `createBooking` returns: the inserted row and the vehicle summary, plus the new store. */
  datatype Created = Created(
    store: Store,
    bookingId: int,
    booking: Booking,
    vehicleName: string,
    dailyRentPrice: int)

  /**
   * Checks that the vehicle exists, then that it is available, then that the
   * rental lasts a positive number of days; then inserts an active booking
   * priced at the daily rate times the number of days and marks the vehicle booked.
   */
  function CreateBooking(s: Store, customerId: int, vehicleId: int, start: int, end: int): (r: Result<Created, BookingError>)
    ensures vehicleId !in s.vehicles ==> r == Failure(VehicleNotFound)
    ensures vehicleId in s.vehicles && s.vehicles[vehicleId].availabilityStatus != Available ==>
      r == Failure(VehicleNotAvailable)
    ensures vehicleId in s.vehicles && s.vehicles[vehicleId].availabilityStatus == Available && end <= start ==>
      r == Failure(InvalidDateRange)
    ensures r.Success? <==>
      vehicleId in s.vehicles && s.vehicles[vehicleId].availabilityStatus == Available && start < end
    ensures r.Success? ==>
      var c := r.value;
      var v := s.vehicles[vehicleId];
      && c.bookingId == s.nextBookingId
      && (WellFormed(s) ==> c.bookingId !in s.bookings)
      && c.booking.status == Active
      && c.booking.customerId == customerId && c.booking.vehicleId == vehicleId
      && c.booking.rentStartDate == start && c.booking.rentEndDate == end
      && c.booking.totalPrice == v.dailyRentPrice * (end - start)
      && c.vehicleName == v.name && c.dailyRentPrice == v.dailyRentPrice
      // the new booking is stored under the fresh id; every other booking is kept
      && c.store.bookings.Keys == s.bookings.Keys + {c.bookingId}
      && c.store.bookings[c.bookingId] == c.booking
      && (WellFormed(s) ==> forall id :: id in s.bookings ==> c.store.bookings[id] == s.bookings[id])
      // the booked vehicle changes only its availability; every other vehicle is untouched
      && c.store.vehicles.Keys == s.vehicles.Keys
      && c.store.vehicles[vehicleId] == v.(availabilityStatus := Booked)
      && (forall id :: id in s.vehicles && id != vehicleId ==> c.store.vehicles[id] == s.vehicles[id])
      && c.store.users == s.users
      && (WellFormed(s) ==> WellFormed(c.store))
  {
    if vehicleId !in s.vehicles then Failure(VehicleNotFound)
    else
      var v := s.vehicles[vehicleId];
      if v.availabilityStatus != Available then Failure(VehicleNotAvailable)
      else
        var days := end - start;
        if days <= 0 then Failure(InvalidDateRange)
        else
          var id := s.nextBookingId;
          var b := Booking(customerId, vehicleId, start, end, v.dailyRentPrice * days, Active);
          var store := s.(
            vehicles := s.vehicles[vehicleId := v.(availabilityStatus := Booked)],
            bookings := s.bookings[id := b],
            nextBookingId := id + 1);
          Success(Created(store, id, b, v.name, v.dailyRentPrice))
  }

  // ---------------------------------------------------------------------------
  // getBookings
  // ---------------------------------------------------------------------------

  /**
   * Whether booking `id` is in the caller's listing: an admin sees every booking
   * whose customer and vehicle both join; anyone else sees the bookings they
   * made whose vehicle joins.
   */
  predicate Visible(s: Store, id: int, userId: int, role: string) {
    && id in s.bookings
    && s.bookings[id].vehicleId in s.vehicles
    && if role == Admin then UserById(s.users, s.bookings[id].customerId).Some?
       else s.bookings[id].customerId == userId
  }

  /** A listed booking: admins get the whole row with customer and vehicle summaries. */
  datatype BookingRow =
    | AdminRow(
        id: int,
        booking: Booking,
        customerName: string,
        customerEmail: string,
        vehicleName: string,
        registrationNumber: string)
    | CustomerRow(
        id: int,
        vehicleId: int,
        rentStartDate: int,
        rentEndDate: int,
        totalPrice: int,
        status: string,
        vehicleName: string,
        registrationNumber: string,
        vehicleType: string)

  /** The columns each role's query selects for a visible booking. */
  function RowOf(s: Store, id: int, userId: int, role: string): (row: BookingRow)
    requires Visible(s, id, userId, role)
    ensures row.id == id
  {
    var b := s.bookings[id];
    var v := s.vehicles[b.vehicleId];
    if role == Admin then
      var u := UserById(s.users, b.customerId).value;
      AdminRow(id, b, u.name, u.email, v.name, v.registrationNumber)
    else
      CustomerRow(id, b.vehicleId, b.rentStartDate, b.rentEndDate, b.totalPrice, b.status,
                  v.name, v.registrationNumber, v.vehicleType)
  }

  /**
   * Each role's query selects its own columns: admins get the whole booking with
   * the joined customer's name and email, others the booking's own columns;
   * both get the joined vehicle's summary.
   */
  lemma RowOfColumns(s: Store, id: int, userId: int, role: string)
    requires Visible(s, id, userId, role)
    ensures
      var row := RowOf(s, id, userId, role);
      var b := s.bookings[id];
      var v := s.vehicles[b.vehicleId];
      && (role == Admin ==>
            && row.AdminRow? && row.booking == b
            && (exists u :: u in s.users && u.id == b.customerId && row.customerName == u.name && row.customerEmail == u.email)
            && row.vehicleName == v.name && row.registrationNumber == v.registrationNumber)
      && (role != Admin ==>
            && row.CustomerRow?
            && row.vehicleId == b.vehicleId && row.rentStartDate == b.rentStartDate && row.rentEndDate == b.rentEndDate
            && row.totalPrice == b.totalPrice && row.status == b.status
            && row.vehicleName == v.name && row.registrationNumber == v.registrationNumber && row.vehicleType == v.vehicleType)
  {
  }

  predicate StrictlyDescending(xs: seq<int>) {
    forall i, j :: 0 <= i < j < |xs| ==> xs[i] > xs[j]
  }

  lemma {:induction false} MaxExists(ks: set<int>)
    requires ks != {}
    ensures exists m :: m in ks && forall k :: k in ks ==> k <= m
  {
    var x := PickOne(ks);
    var rest := ks - {x};
    var top := x;
    if rest != {} {
      MaxExists(rest);
      var m :| m in rest && forall k :: k in rest ==> k <= m;
      top := if x > m then x else m;
      forall k | k in ks
        ensures k <= top
      {
        if k != x {
          assert k in rest;
        }
      }
    } else {
      forall k | k in ks
        ensures k <= x
      {
        assert k !in rest;
      }
    }
    assert top in ks && forall k :: k in ks ==> k <= top;
  }

  lemma PickOne(ks: set<int>) returns (x: int)
    requires ks != {}
    ensures x in ks
  {
    // a set with no members is the empty set, which the precondition excludes
    if forall y :: y !in ks {
      assert false;
    }
    x :| x in ks;
  }

  /** A set of ids listed from highest to lowest, the order both listing queries ask for. */
  function SortDescending(ks: set<int>): (xs: seq<int>)
    ensures StrictlyDescending(xs)
    ensures forall k :: k in xs <==> k in ks
    decreases ks
  {
    if ks == {} then []
    else
      MaxExists(ks);
      var m :| m in ks && forall k :: k in ks ==> k <= m;
      [m] + SortDescending(ks - {m})
  }

  /** The head of a strictly descending sequence is above everything after it. */
  lemma HeadAboveTail(xs: seq<int>)
    requires |xs| > 0
    ensures StrictlyDescending(xs) ==> forall k :: k in xs[1..] ==> xs[0] > k
  {
  }

  lemma ConsDescending(x: int, ys: seq<int>)
    requires StrictlyDescending(ys)
    requires forall k :: k in ys ==> x > k
    ensures StrictlyDescending([x] + ys)
  {
    var zs := [x] + ys;
    forall i, j | 0 <= i < j < |zs|
      ensures zs[i] > zs[j]
    {
      assert zs[j] == ys[j - 1] && ys[j - 1] in ys;
      if i > 0 {
        assert zs[i] == ys[i - 1];
      }
    }
  }

  /** The ids of `xs` that are visible to the caller, in the order of `xs`. */
  function KeepVisible(s: Store, xs: seq<int>, userId: int, role: string): (ys: seq<int>)
    ensures forall k :: k in ys <==> k in xs && Visible(s, k, userId, role)
    ensures StrictlyDescending(xs) ==> StrictlyDescending(ys)
  {
    if |xs| == 0 then []
    else
      var rest := KeepVisible(s, xs[1..], userId, role);
      HeadAboveTail(xs);
      if Visible(s, xs[0], userId, role) then
        if StrictlyDescending(xs) then
          assert StrictlyDescending(xs[1..]);
          ConsDescending(xs[0], rest);
          [xs[0]] + rest
        else [xs[0]] + rest
      else rest
  }

  /**
   * `getBookings(userId, role)`: the rows of the role's query, newest (highest
   * id) first.
   */
  function GetBookings(s: Store, userId: int, role: string): (rows: seq<BookingRow>)
    ensures forall i, j :: 0 <= i < j < |rows| ==> rows[i].id > rows[j].id
    ensures forall i :: 0 <= i < |rows| ==>
      Visible(s, rows[i].id, userId, role) && rows[i] == RowOf(s, rows[i].id, userId, role)
    ensures forall id :: Visible(s, id, userId, role) ==> exists i :: 0 <= i < |rows| && rows[i].id == id
  {
    var ids := KeepVisible(s, SortDescending(s.bookings.Keys), userId, role);
    var rows := seq(|ids|, i requires 0 <= i < |ids| => RowOf(s, ids[i], userId, role));
    RowsFollowIds(s, ids, rows, userId, role);
    rows
  }

  /** Each listed row carries the id it was built from. */
  lemma RowsFollowIds(s: Store, ids: seq<int>, rows: seq<BookingRow>, userId: int, role: string)
    requires forall k :: k in ids ==> Visible(s, k, userId, role)
    requires rows == seq(|ids|, i requires 0 <= i < |ids| => RowOf(s, ids[i], userId, role))
    ensures forall k :: k in ids ==> exists i :: 0 <= i < |rows| && rows[i].id == k
  {
    forall k | k in ids
      ensures exists i :: 0 <= i < |rows| && rows[i].id == k
    {
      var i :| 0 <= i < |ids| && ids[i] == k;
      assert rows[i].id == k;
    }
  }

  // ---------------------------------------------------------------------------
  // updateBooking
  // ---------------------------------------------------------------------------

  /** What `updateBooking` returns: the updated row, plus the new store. */
  datatype Updated = Updated(store: Store, bookingId: int, booking: Booking)

  /**
   * `updateBooking(bookingId, status, userId, role)`: a customer may only cancel
   * a booking they made; every other role may write any status. The booking's
   * current status is not consulted. The vehicle is released only when an admin
   * marks the booking returned.
   */
  function UpdateBooking(s: Store, bookingIdText: string, status: string, userId: int, role: string): (r: Result<Updated, BookingError>)
    ensures Text.ParseNumber(bookingIdText).None? ==> r == Failure(InvalidBookingId)
    ensures Text.ParseNumber(bookingIdText).Some? && Text.ParseNumber(bookingIdText).value !in s.bookings ==>
      r == Failure(BookingNotFound)
    ensures Text.ParseNumber(bookingIdText).Some? && Text.ParseNumber(bookingIdText).value in s.bookings ==>
      var b := s.bookings[Text.ParseNumber(bookingIdText).value];
      && (role == Customer && b.customerId != userId ==> r == Failure(NotOwner))
      && (role == Customer && b.customerId == userId && status != Cancelled ==> r == Failure(CustomerMayOnlyCancel))
      && (r.Success? <==> role != Customer || (b.customerId == userId && status == Cancelled))
    ensures r.Success? ==> r.value.bookingId in s.bookings
    ensures r.Success? ==>
      var u := r.value;
      var before := s.bookings[u.bookingId];
      var freed := role == Admin && status == Returned;
      && Text.ParseNumber(bookingIdText) == Some(u.bookingId)
      // the status is overwritten whatever it was; no other column and no other booking changes
      && u.booking == before.(status := status)
      && u.store.bookings == s.bookings[u.bookingId := u.booking]
      // only an admin's "returned" makes the vehicle available again
      && u.store.vehicles.Keys == s.vehicles.Keys
      && (forall vid :: vid in s.vehicles && !(freed && vid == before.vehicleId) ==>
            u.store.vehicles[vid] == s.vehicles[vid])
      && (freed && before.vehicleId in s.vehicles ==>
            u.store.vehicles[before.vehicleId] == s.vehicles[before.vehicleId].(availabilityStatus := Available))
      && u.store.users == s.users && u.store.nextBookingId == s.nextBookingId
  {
    match Text.ParseNumber(bookingIdText)
    case None => Failure(InvalidBookingId)
    case Some(id) =>
      if id !in s.bookings then Failure(BookingNotFound)
      else
        var b := s.bookings[id];
        if role == Customer && b.customerId != userId then Failure(NotOwner)
        else if role == Customer && status != Cancelled then Failure(CustomerMayOnlyCancel)
        else
          var vehicles :=
            if role == Admin && status == Returned then ReleaseVehicle(s.vehicles, b.vehicleId)
            else s.vehicles;
          var b' := b.(status := status);
          Success(Updated(s.(vehicles := vehicles, bookings := s.bookings[id := b']), id, b'))
  }

  /** An id that is not number text is refused as invalid, whatever the store, status or caller. */
  lemma NonNumericBookingIdRefused(s: Store, bookingIdText: string, status: string, userId: int, role: string)
    requires !Text.NumberText(bookingIdText)
    ensures UpdateBooking(s, bookingIdText, status, userId, role) == Failure(InvalidBookingId)
  {
    Text.ParseNumberNaN(bookingIdText);
  }

  /** Marks one vehicle available and leaves every other row alone; a missing vehicle stays missing. */
  function ReleaseVehicle(vehicles: map<int, Vehicle>, vid: int): (r: map<int, Vehicle>)
    ensures r.Keys == vehicles.Keys
    ensures vid in vehicles ==> r[vid] == vehicles[vid].(availabilityStatus := Available)
    ensures forall id :: id in vehicles && id != vid ==> r[id] == vehicles[id]
  {
    if vid in vehicles then vehicles[vid := vehicles[vid].(availabilityStatus := Available)] else vehicles
  }
}

=== FILE: credentials.dfy ===
/**
 * The auth service's `createUser` password rule and `login`. Hashing and
 * signing are the `hash`, `compare` and `sign` parameters: `hash(p)` is what
 * `bcrypt.hash(p, 8)` stores, `compare(p, h)` is `bcrypt.compare`, and
 * `sign(claims)` is the token `jwt.sign` issues for those claims.
 */
module Credentials {
  import opened Wrappers
  import opened Schema
  import AuthGate

  /** The `password` field of a sign-up payload. */
  datatype PasswordField = Missing | NotAString | Given(text: string)

  datatype SignUp = SignUp(name: string, email: string, role: string, password: PasswordField, phone: string)

  datatype AuthError = PasswordTooShort | UserNotFound | InvalidCredentials

  function Message(e: AuthError): string {
    match e
    case PasswordTooShort => "Password must be at least 6 characters long"
    case UserNotFound => "User not found"
    case InvalidCredentials => "Invalid credentials"
  }

  const MinPasswordLength := 6

  /** The new table and the inserted row (`RETURNING *`). */
  datatype Inserted = Inserted(users: seq<User>, row: User)

  /**
   * `createUser(payload)`: a missing, non-string or shorter-than-six password
   * is refused before anything is hashed or inserted; otherwise the row is
   * appended under the id the serial hands out, with the password hashed.
   */
  function CreateUser(users: seq<User>, newId: int, payload: SignUp, hash: string -> string): (r: Result<Inserted, AuthError>)
    ensures r.Failure? <==> !payload.password.Given? || |payload.password.text| < MinPasswordLength
    ensures r.Failure? ==> r.error == PasswordTooShort
    ensures r.Success? ==>
      var row := r.value.row;
      && r.value.users == users + [row]
      && row.password == hash(payload.password.text)
      && row.id == newId && row.name == payload.name && row.email == payload.email
      && row.phone == payload.phone && row.role == payload.role
  {
    match payload.password
    case Given(text) =>
      if |text| < MinPasswordLength then Failure(PasswordTooShort)
      else
        var row := User(newId, payload.name, payload.email, payload.phone, payload.role, hash(text));
        Success(Inserted(users + [row], row))
    case _ => Failure(PasswordTooShort)
  }

  /** What `login` returns: the signed token and the user summary. */
  datatype Session = Session(token: string, data: UserProfile)

  /** The claims `login` signs for a user: the same id, email and role as the summary returned beside the token. */
  function ClaimsOf(u: User): (c: AuthGate.Claims)
    ensures c.userId == ProfileOf(u).id && c.email == ProfileOf(u).email && c.role == ProfileOf(u).role
  {
    AuthGate.Claims(u.id, u.email, u.role)
  }

  /**
   * `login({email, password})`: the first row with that email must exist and
   * its stored hash must match the password; the token then carries the
   * user's id, email and role, and the summary leaves the password out.
   */
  function Login(users: seq<User>, email: string, password: string,
                 compare: (string, string) -> bool, sign: AuthGate.Claims -> string): (r: Result<Session, AuthError>)
    ensures (forall i :: 0 <= i < |users| ==> users[i].email != email) ==> r == Failure(UserNotFound)
    ensures forall k :: 0 <= k < |users| && users[k].email == email && (forall j :: 0 <= j < k ==> users[j].email != email) ==>
      && (!compare(password, users[k].password) ==> r == Failure(InvalidCredentials))
      && (compare(password, users[k].password) ==>
            r == Success(Session(sign(AuthGate.Claims(users[k].id, users[k].email, users[k].role)),
                                 UserProfile(users[k].id, users[k].name, users[k].email, users[k].phone, users[k].role))))
  {
    match UserByEmail(users, email)
    case None => Failure(UserNotFound)
    case Some(u) =>
      if !compare(password, u.password) then Failure(InvalidCredentials)
      else Success(Session(sign(ClaimsOf(u)), ProfileOf(u)))
  }

  /**
   * Signing up with a fresh email and an acceptable password, then logging in
   * with that password, succeeds for the new row, provided `compare` accepts a
   * password against its own hash.
   */
  lemma SignUpThenLogin(users: seq<User>, newId: int, payload: SignUp, hash: string -> string,
                        compare: (string, string) -> bool, sign: AuthGate.Claims -> string)
    requires payload.password.Given? && |payload.password.text| >= MinPasswordLength
    requires forall i :: 0 <= i < |users| ==> users[i].email != payload.email
    requires compare(payload.password.text, hash(payload.password.text))
    ensures CreateUser(users, newId, payload, hash).Success?
    ensures Login(CreateUser(users, newId, payload, hash).value.users, payload.email, payload.password.text, compare, sign)
         == Success(Session(sign(AuthGate.Claims(newId, payload.email, payload.role)),
                            UserProfile(newId, payload.name, payload.email, payload.phone, payload.role)))
  {
    var t := CreateUser(users, newId, payload, hash).value.users;
    assert t[|users|].email == payload.email;
    assert forall j :: 0 <= j < |users| ==> t[j].email != payload.email;
  }

  /** A successful login is for the row the email lookup finds: its claims signed, and its summary. */
  lemma LoginIssuesFor(users: seq<User>, email: string, password: string,
                       compare: (string, string) -> bool, sign: AuthGate.Claims -> string)
    requires Login(users, email, password, compare, sign).Success?
    ensures UserByEmail(users, email).Some?
    ensures compare(password, UserByEmail(users, email).value.password)
    ensures Login(users, email, password, compare, sign).value
         == Session(sign(ClaimsOf(UserByEmail(users, email).value)), ProfileOf(UserByEmail(users, email).value))
  {
  }

  /**
   * A token issued by `login`, sent as `Bearer <token>`, passes `Auth` for any
   * role list holding the user's role, with `req.user` set to the signed
   * claims, provided `verify` accepts what `sign` issues and tokens hold no space.
   */
  lemma LoginTokenPassesAuth(users: seq<User>, email: string, password: string,
                             compare: (string, string) -> bool, sign: AuthGate.Claims -> string,
                             verify: string -> Option<AuthGate.Claims>, roles: seq<string>)
    requires Login(users, email, password, compare, sign).Success?
    requires forall c :: verify(sign(c)) == Some(c)
    requires forall c :: sign(c) != "" && ' ' !in sign(c)
    requires UserByEmail(users, email).Some? ==> UserByEmail(users, email).value.role in roles
    ensures
      var s := Login(users, email, password, compare, sign).value;
      var u := UserByEmail(users, email).value;
      AuthGate.Auth(Some(roles), Some("Bearer " + s.token), verify) == AuthGate.Next(ClaimsOf(u))
  {
    LoginIssuesFor(users, email, password, compare, sign);
    var u := UserByEmail(users, email).value;
    AuthGate.BearerHeaderPasses(sign(ClaimsOf(u)), ClaimsOf(u), roles, verify);
  }
}

=== FILE: lifecycle.dfy ===
/**
 * The rule a rental service needs — a vehicle is marked booked exactly when
 * one active booking holds it — checked against the service as written, and
 * a guarded status transition that keeps it.
 */
module Lifecycle {
  import opened Wrappers
  import opened Schema
  import opened Bookings
  import Text

  predicate IsActive(s: Store, id: int) {
    id in s.bookings && s.bookings[id].status == Active
  }

  /** Every active booking holds an existing vehicle that is marked booked. */
  ghost predicate ActiveHoldsVehicle(s: Store) {
    forall id :: IsActive(s, id) ==>
      s.bookings[id].vehicleId in s.vehicles && s.vehicles[s.bookings[id].vehicleId].availabilityStatus == Booked
  }

  /** No vehicle is held by two active bookings. */
  ghost predicate OneActivePerVehicle(s: Store) {
    forall i, j :: IsActive(s, i) && IsActive(s, j) && s.bookings[i].vehicleId == s.bookings[j].vehicleId ==> i == j
  }

  ghost predicate HasActiveBooking(s: Store, vid: int) {
    exists id :: IsActive(s, id) && s.bookings[id].vehicleId == vid
  }

  /** A vehicle marked booked is held by some active booking. */
  ghost predicate BookedHasActive(s: Store) {
    forall vid :: vid in s.vehicles && s.vehicles[vid].availabilityStatus == Booked ==> HasActiveBooking(s, vid)
  }

  ghost predicate Consistent(s: Store) {
    && WellFormed(s)
    && ActiveHoldsVehicle(s)
    && OneActivePerVehicle(s)
    && BookedHasActive(s)
  }

  /** `createBooking` keeps the store consistent. */
  lemma CreateBookingKeepsConsistent(s: Store, customerId: int, vehicleId: int, start: int, end: int)
    requires Consistent(s)
    ensures CreateBooking(s, customerId, vehicleId, start, end).Success? ==>
      Consistent(CreateBooking(s, customerId, vehicleId, start, end).value.store)
  {
  }

  /** In the store right after a successful booking, every request for that vehicle is refused as unavailable. */
  lemma SecondBookingRefused(s: Store, customerId: int, vehicleId: int, start: int, end: int,
                             otherCustomer: int, otherStart: int, otherEnd: int)
    requires CreateBooking(s, customerId, vehicleId, start, end).Success?
    ensures CreateBooking(CreateBooking(s, customerId, vehicleId, start, end).value.store,
                          otherCustomer, vehicleId, otherStart, otherEnd) == Failure(VehicleNotAvailable)
  {
  }

  // ---------------------------------------------------------------------------
  // What `updateBooking` as written does to the rule
  // ---------------------------------------------------------------------------

  /**
   * A customer cancelling their active booking succeeds, but the vehicle stays
   * marked booked with no active booking holding it, so every booking request
   * for it in the resulting store is refused.
   */
  lemma CancelStrandsVehicle(s: Store, bookingIdText: string, id: int, userId: int)
    requires Consistent(s)
    requires Text.ParseNumber(bookingIdText) == Some(id)
    requires IsActive(s, id) && s.bookings[id].customerId == userId
    ensures UpdateBooking(s, bookingIdText, Cancelled, userId, Customer).Success?
    ensures
      var t := UpdateBooking(s, bookingIdText, Cancelled, userId, Customer).value.store;
      var vid := s.bookings[id].vehicleId;
      && vid in t.vehicles && t.vehicles[vid].availabilityStatus == Booked
      && !HasActiveBooking(t, vid)
      && !BookedHasActive(t)
      && forall c, a, b :: CreateBooking(t, c, vid, a, b) == Failure(VehicleNotAvailable)
  {
  }

  /**
   * One way out of the stranding: an admin marks the cancelled booking
   * returned. That write succeeds although the booking is no longer active,
   * frees the vehicle, and a new booking for it then succeeds.
   */
  lemma CancelledFreedByAdminReturn(s: Store, bookingIdText: string, id: int, userId: int, adminId: int,
                                    customerId: int, start: int, end: int)
    requires Consistent(s)
    requires Text.ParseNumber(bookingIdText) == Some(id)
    requires IsActive(s, id) && s.bookings[id].customerId == userId
    requires start < end
    ensures UpdateBooking(s, bookingIdText, Cancelled, userId, Customer).Success?
    ensures
      var t := UpdateBooking(s, bookingIdText, Cancelled, userId, Customer).value.store;
      var vid := s.bookings[id].vehicleId;
      && UpdateBooking(t, bookingIdText, Returned, adminId, Admin).Success?
      && var w := UpdateBooking(t, bookingIdText, Returned, adminId, Admin).value.store;
         && w.vehicles[vid].availabilityStatus == Available
         && CreateBooking(w, customerId, vid, start, end).Success?
  {
    var t := UpdateBooking(s, bookingIdText, Cancelled, userId, Customer).value.store;
    assert id in t.bookings && t.bookings[id].vehicleId == s.bookings[id].vehicleId;
  }

  /**
   * An admin's `returned` on any booking of a vehicle, whatever that booking's
   * status, makes the vehicle available, after which a new booking for it
   * succeeds: so a stranded vehicle is freed by a return of any of its
   * bookings, not only the cancelled one.
   */
  lemma AdminReturnFreesVehicle(t: Store, bookingIdText: string, prior: int, adminId: int,
                                customerId: int, start: int, end: int)
    requires Text.ParseNumber(bookingIdText) == Some(prior)
    requires prior in t.bookings && t.bookings[prior].vehicleId in t.vehicles
    requires start < end
    ensures UpdateBooking(t, bookingIdText, Returned, adminId, Admin).Success?
    ensures
      var vid := t.bookings[prior].vehicleId;
      var w := UpdateBooking(t, bookingIdText, Returned, adminId, Admin).value.store;
      && w.vehicles[vid].availabilityStatus == Available
      && CreateBooking(w, customerId, vid, start, end).Success?
  {
  }

  /**
   * An admin marking returned a booking that is no longer active frees its
   * vehicle even when another active booking holds that vehicle; a new booking
   * for the vehicle then succeeds, leaving two active bookings on it.
   */
  lemma {:induction false} RepeatReturnDoubleBooks(s: Store, bookingIdText: string, id: int, holder: int, adminId: int,
                                                   customerId: int, start: int, end: int)
    requires Consistent(s)
    requires Text.ParseNumber(bookingIdText) == Some(id)
    requires id in s.bookings && !IsActive(s, id)
    requires IsActive(s, holder) && s.bookings[holder].vehicleId == s.bookings[id].vehicleId
    requires start < end
    ensures UpdateBooking(s, bookingIdText, Returned, adminId, Admin).Success?
    ensures
      var t := UpdateBooking(s, bookingIdText, Returned, adminId, Admin).value.store;
      var vid := s.bookings[id].vehicleId;
      && !ActiveHoldsVehicle(t)
      && CreateBooking(t, customerId, vid, start, end).Success?
      && !OneActivePerVehicle(CreateBooking(t, customerId, vid, start, end).value.store)
  {
    var t := UpdateBooking(s, bookingIdText, Returned, adminId, Admin).value.store;
    var vid := s.bookings[id].vehicleId;
    assert IsActive(t, holder);
    var c := CreateBooking(t, customerId, vid, start, end).value;
    assert c.bookingId == t.nextBookingId && t.nextBookingId == s.nextBookingId;
    assert holder != c.bookingId;
    assert IsActive(c.store, holder) && IsActive(c.store, c.bookingId);
  }

  /**
   * A concrete run of the service from a consistent store: a booking, its
   * return, a second customer's booking, a repeated return of the first
   * booking, and a third customer's booking leave two active bookings on one vehicle.
   */
  lemma DoubleBookingRun()
    ensures
      var s0 := Store([], map[1 := Vehicle("Corolla", "car", "DHK-1", 50, Available)], map[], 1);
      var s1 := CreateBooking(s0, 10, 1, 0, 3).value.store;
      var s2 := UpdateBooking(s1, "1", Returned, 99, Admin).value.store;
      var s3 := CreateBooking(s2, 20, 1, 5, 8).value.store;
      var s4 := UpdateBooking(s3, "1", Returned, 99, Admin).value.store;
      && Consistent(s0) && Consistent(s3)
      && CreateBooking(s4, 30, 1, 5, 8).Success?
      && !OneActivePerVehicle(CreateBooking(s4, 30, 1, 5, 8).value.store)
  {
    var s0 := Store([], map[1 := Vehicle("Corolla", "car", "DHK-1", 50, Available)], map[], 1);
    assert Text.ParseNumber("1") == Some(1) by { Text.IntToStringParses(1); }
    CreateBookingKeepsConsistent(s0, 10, 1, 0, 3);
    var s1 := CreateBooking(s0, 10, 1, 0, 3).value.store;
    assert IsActive(s1, 1) && s1.bookings[1].vehicleId == 1;
    GuardedAgreesOnAdminReturn(s1, "1", 1, 99);
    GuardedUpdateKeepsConsistent(s1, "1", Returned, 99, Admin);
    var s2 := UpdateBooking(s1, "1", Returned, 99, Admin).value.store;
    assert s2.vehicles[1].availabilityStatus == Available;
    CreateBookingKeepsConsistent(s2, 20, 1, 5, 8);
    var s3 := CreateBooking(s2, 20, 1, 5, 8).value.store;
    assert !IsActive(s3, 1) && IsActive(s3, 2) && s3.bookings[2].vehicleId == s3.bookings[1].vehicleId;
    RepeatReturnDoubleBooks(s3, "1", 1, 2, 99, 30, 5, 8);
  }

  // ---------------------------------------------------------------------------
  // The guarded transition
  // ---------------------------------------------------------------------------

  /**
   * `updateBooking` with the two guards its lifecycle needs: only "cancelled"
   * and "returned" are accepted, only an active booking can move, and either
   * outcome releases the vehicle. Id parsing, lookup and the customer policy
   * are those of `UpdateBooking`, in the same order.
   */
  function UpdateBookingGuarded(s: Store, bookingIdText: string, status: string, userId: int, role: string): (r: Result<Updated, BookingError>)
    ensures Text.ParseNumber(bookingIdText).None? ==> r == Failure(InvalidBookingId)
    ensures Text.ParseNumber(bookingIdText).Some? && Text.ParseNumber(bookingIdText).value !in s.bookings ==>
      r == Failure(BookingNotFound)
    ensures Text.ParseNumber(bookingIdText).Some? && Text.ParseNumber(bookingIdText).value in s.bookings ==>
      var b := s.bookings[Text.ParseNumber(bookingIdText).value];
      var permitted := role != Customer || (b.customerId == userId && status == Cancelled);
      && (role == Customer && b.customerId != userId ==> r == Failure(NotOwner))
      && (role == Customer && b.customerId == userId && status != Cancelled ==> r == Failure(CustomerMayOnlyCancel))
      && (permitted && status != Cancelled && status != Returned ==> r == Failure(InvalidStatus))
      && (permitted && (status == Cancelled || status == Returned) && b.status != Active ==> r == Failure(BookingNotActive))
      && (r.Success? <==> permitted && (status == Cancelled || status == Returned) && b.status == Active)
    ensures r.Success? ==> r.value.bookingId in s.bookings
    ensures r.Success? ==>
      var u := r.value;
      var before := s.bookings[u.bookingId];
      && before.status == Active
      && u.booking == before.(status := status)
      && u.store.bookings == s.bookings[u.bookingId := u.booking]
      && u.store.vehicles == ReleaseVehicle(s.vehicles, before.vehicleId)
      && u.store.users == s.users && u.store.nextBookingId == s.nextBookingId
  {
    match Text.ParseNumber(bookingIdText)
    case None => Failure(InvalidBookingId)
    case Some(id) =>
      if id !in s.bookings then Failure(BookingNotFound)
      else
        var b := s.bookings[id];
        if role == Customer && b.customerId != userId then Failure(NotOwner)
        else if role == Customer && status != Cancelled then Failure(CustomerMayOnlyCancel)
        else if status != Cancelled && status != Returned then Failure(InvalidStatus)
        else if b.status != Active then Failure(BookingNotActive)
        else
          var b' := b.(status := status);
          Success(Updated(s.(vehicles := ReleaseVehicle(s.vehicles, b.vehicleId), bookings := s.bookings[id := b']), id, b'))
  }

  /** The guarded transition keeps the store consistent. */
  lemma {:induction false} GuardedUpdateKeepsConsistent(s: Store, bookingIdText: string, status: string, userId: int, role: string)
    requires Consistent(s)
    ensures UpdateBookingGuarded(s, bookingIdText, status, userId, role).Success? ==>
      Consistent(UpdateBookingGuarded(s, bookingIdText, status, userId, role).value.store)
  {
    var r := UpdateBookingGuarded(s, bookingIdText, status, userId, role);
    if r.Success? {
      var t := r.value.store;
      var id := r.value.bookingId;
      var vid := s.bookings[id].vehicleId;
      assert IsActive(s, id);
      assert !IsActive(t, id);
      assert vid in s.vehicles;
      assert t.vehicles[vid].availabilityStatus == Available;
      forall j | IsActive(t, j)
        ensures t.bookings[j].vehicleId in t.vehicles
        ensures t.vehicles[t.bookings[j].vehicleId].availabilityStatus == Booked
      {
        assert j != id && IsActive(s, j);
        assert s.bookings[j].vehicleId != vid;
      }
      forall i, j | IsActive(t, i) && IsActive(t, j) && t.bookings[i].vehicleId == t.bookings[j].vehicleId
        ensures i == j
      {
        assert IsActive(s, i) && IsActive(s, j);
      }
      forall w | w in t.vehicles && t.vehicles[w].availabilityStatus == Booked
        ensures HasActiveBooking(t, w)
      {
        assert w != vid;
        assert HasActiveBooking(s, w);
        var k :| IsActive(s, k) && s.bookings[k].vehicleId == w;
        assert k != id;
        assert IsActive(t, k) && t.bookings[k].vehicleId == w;
      }
    }
  }

  /** On an active booking, an admin's "returned" means the same under both transitions. */
  lemma GuardedAgreesOnAdminReturn(s: Store, bookingIdText: string, id: int, userId: int)
    requires Text.ParseNumber(bookingIdText) == Some(id)
    requires IsActive(s, id)
    ensures UpdateBookingGuarded(s, bookingIdText, Returned, userId, Admin)
         == UpdateBooking(s, bookingIdText, Returned, userId, Admin)
  {
  }

  /** A second identical transition is refused because the booking is no longer active. */
  lemma GuardedRepeatRefused(s: Store, bookingIdText: string, status: string, userId: int, role: string)
    requires UpdateBookingGuarded(s, bookingIdText, status, userId, role).Success?
    ensures UpdateBookingGuarded(UpdateBookingGuarded(s, bookingIdText, status, userId, role).value.store,
                                 bookingIdText, status, userId, role) == Failure(BookingNotActive)
  {
  }
}

=== FILE: partial_update.dfy ===
/**
 * The partial-update builder shared by `updateSingleVehicle` and `updateUser`:
 * keep the payload entries whose key is whitelisted, render them as
 * `key = $i` assignments joined by ", ", and bind the values followed by the
 * row id as positional parameters. SQL text is built, never interpreted.
 */
module PartialUpdate {
  import opened Wrappers
  import Text

  /** One positional parameter: a payload value, or the id the WHERE clause matches. */
  datatype Param<V> = Value(value: V) | RowId(id: int)

  /** `UPDATE <table> SET <setClause> WHERE id = <wherePlaceholder> RETURNING <returning>` with its parameters. */
  datatype Statement<V> = Statement(
    table: string,
    setClause: string,
    wherePlaceholder: string,
    params: seq<Param<V>>,
    returning: seq<string>)

  /** The payload entries whose key is whitelisted, in payload order. */
  function FilterAllowed<V(!new)>(payload: seq<(string, V)>, allowed: seq<string>): (entries: seq<(string, V)>)
    ensures forall e :: e in entries <==> e in payload && e.0 in allowed
    ensures |entries| <= |payload|
  {
    if |payload| == 0 then []
    else
      var rest := FilterAllowed(payload[1..], allowed);
      if payload[0].0 in allowed then [payload[0]] + rest else rest
  }

  /** Some payload key is one of the allowed columns. */
  predicate HasAllowedKey<V>(payload: seq<(string, V)>, allowed: seq<string>) {
    exists i :: 0 <= i < |payload| && payload[i].0 in allowed
  }

  /** The filter keeps something exactly when some payload key is allowed. */
  lemma FilterAllowedNonEmpty<V(!new)>(payload: seq<(string, V)>, allowed: seq<string>)
    ensures |FilterAllowed(payload, allowed)| > 0 <==> HasAllowedKey(payload, allowed)
  {
  }

  /** The filtered entries' keys are allowed, hence plain when every allowed name is. */
  lemma AllowedEntriesArePlain<V(!new)>(payload: seq<(string, V)>, allowed: seq<string>)
    requires forall k :: k in allowed ==> PlainName(k)
    ensures forall i :: 0 <= i < |FilterAllowed(payload, allowed)| ==>
      FilterAllowed(payload, allowed)[i].0 in allowed && PlainName(FilterAllowed(payload, allowed)[i].0)
  {
  }

  /** Filtering distributes over concatenation: survivors keep their payload order. */
  lemma {:induction false} FilterAllowedConcat<V(!new)>(a: seq<(string, V)>, b: seq<(string, V)>, allowed: seq<string>)
    ensures FilterAllowed(a + b, allowed) == FilterAllowed(a, allowed) + FilterAllowed(b, allowed)
  {
    if |a| > 0 {
      assert (a + b)[1..] == a[1..] + b;
      FilterAllowedConcat(a[1..], b, allowed);
    } else {
      assert a + b == b;
    }
  }

  /** The placeholder for parameter position p: a dollar sign and p in decimal. */
  function Placeholder(p: nat): string {
    "$" + Text.NatToString(p)
  }

  /** The parameter position a `$p` placeholder names. */
  function PlaceholderIndex(ph: string): Option<int> {
    if |ph| >= 1 && ph[0] == '$' then Text.ParseNumber(ph[1..]) else None
  }

  /** The assignment of column `key` to the parameter at position p. */
  function Assignment(key: string, p: nat): string {
    key + " = " + Placeholder(p)
  }

  /** The column an assignment writes: its text before " = ". */
  function ColumnOf(assignment: string): string {
    Text.Split(assignment, " = ")[0]
  }

  /** The placeholder an assignment binds: its text after " = ". */
  function SlotOf(assignment: string): string {
    var parts := Text.Split(assignment, " = ");
    if |parts| >= 2 then parts[1] else ""
  }

  /** One assignment per entry, binding its key to the 1-based position of its value. */
  function Assignments<V>(entries: seq<(string, V)>): seq<string>
  {
    seq(|entries|, i requires 0 <= i < |entries| => Assignment(entries[i].0, i + 1))
  }

  /**
   * The statement built from the filtered entries: the assignments followed by
   * `extra` (fixed assignments such as `updated_at = NOW()`) joined by ", ",
   * the WHERE placeholder after the last value, and the values then the id.
   */
  function BuildUpdate<V>(table: string, entries: seq<(string, V)>, id: int, extra: seq<string>, returning: seq<string>): (stmt: Statement<V>)
    ensures |stmt.params| == |entries| + 1
    ensures forall i :: 0 <= i < |entries| ==> stmt.params[i] == Value(entries[i].1)
    ensures stmt.params[|entries|] == RowId(id)
    ensures stmt.table == table && stmt.returning == returning
  {
    Statement(
      table,
      Text.Join(Assignments(entries) + extra, ", "),
      Placeholder(|entries| + 1),
      seq(|entries|, i requires 0 <= i < |entries| => Value(entries[i].1)) + [RowId(id)],
      returning)
  }

  /** A column name that cannot be confused with the clause's punctuation. */
  predicate PlainName(key: string) {
    ' ' !in key && ',' !in key
  }

  lemma PlaceholderIsPlain(p: nat)
    ensures PlainName(Placeholder(p))
    ensures '$' == Placeholder(p)[0]
  {
  }

  /** A `$p` placeholder reads back as position p. */
  lemma PlaceholderRoundTrip(p: nat)
    ensures PlaceholderIndex(Placeholder(p)) == Some(p)
  {
    assert Placeholder(p)[1..] == Text.NatToString(p);
    Text.IntToStringParses(p);
  }

  /** An assignment reads back as its column and the position its placeholder names. */
  lemma {:induction false} AssignmentReadsBack(key: string, p: nat)
    requires PlainName(key)
    ensures ',' !in Assignment(key, p)
    ensures ColumnOf(Assignment(key, p)) == key
    ensures PlaceholderIndex(SlotOf(Assignment(key, p))) == Some(p)
  {
    var ph := Placeholder(p);
    PlaceholderIsPlain(p);
    Text.SplitAfterPiece(key, " = ", ph);
    Text.SplitWithoutSeparator(ph, " = ");
    assert Assignment(key, p) == key + " = " + ph;
    PlaceholderRoundTrip(p);
  }

  /**
   * Reading the SET clause back: split at ", ", the first n pieces name the
   * filtered keys in order, piece i binding placeholder `$(i+1)`, whose
   * parameter is that key's value; the fixed assignments follow; the WHERE
   * placeholder is `$(n+1)`, whose parameter is the row id.
   */
  lemma {:induction false} SetClauseReadsBack<V>(table: string, entries: seq<(string, V)>, id: int, extra: seq<string>, returning: seq<string>)
    requires |entries| + |extra| >= 1
    requires forall i :: 0 <= i < |entries| ==> PlainName(entries[i].0)
    requires forall i :: 0 <= i < |extra| ==> ',' !in extra[i]
    ensures
      var stmt := BuildUpdate(table, entries, id, extra, returning);
      var pieces := Text.Split(stmt.setClause, ", ");
      var n := |entries|;
      && |pieces| == n + |extra|
      && (forall i :: 0 <= i < n ==>
            && ColumnOf(pieces[i]) == entries[i].0
            && PlaceholderIndex(SlotOf(pieces[i])) == Some(i + 1)
            && stmt.params[i] == Value(entries[i].1))
      && pieces[n..] == extra
      && PlaceholderIndex(stmt.wherePlaceholder) == Some(n + 1)
      && stmt.params[n] == RowId(id)
  {
    var assignments := Assignments(entries);
    var items := assignments + extra;
    forall i | 0 <= i < |entries|
      ensures ',' !in assignments[i]
      ensures ColumnOf(assignments[i]) == entries[i].0
      ensures PlaceholderIndex(SlotOf(assignments[i])) == Some(i + 1)
    {
      AssignmentReadsBack(entries[i].0, i + 1);
    }
    assert forall i :: 0 <= i < |items| ==> ", "[0] !in items[i] by {
      forall i | 0 <= i < |items|
        ensures ", "[0] !in items[i]
      {
        if i >= |assignments| {
          assert items[i] == extra[i - |assignments|];
        }
      }
    }
    Text.SplitJoin(items, ", ");
    PlaceholderRoundTrip(|entries| + 1);
    assert items[|entries|..] == extra;
  }
}

=== FILE: schema.dfy ===
/**
 * The rows of the three tables the services read and write, and the string
 * constants stored in their status and role columns.
 */
module Schema {
  import opened Wrappers


  /** A row of `users`; `password` holds whatever `createUser` stored (the bcrypt hash). */
  datatype User = User(id: int, name: string, email: string, phone: string, role: string, password: string)

  /** The columns of `users` other than `password`: what `getUsers`, `updateUser` and `login` hand out. */
  datatype UserProfile = UserProfile(id: int, name: string, email: string, phone: string, role: string)

  function ProfileOf(u: User): UserProfile
  {
    UserProfile(u.id, u.name, u.email, u.phone, u.role)
  }

  /** The first `users` row with this id, as a join on `users.id` finds it. */
  function UserById(users: seq<User>, id: int): (r: Option<User>)
    ensures r.Some? ==> r.value in users && r.value.id == id
    ensures r.None? <==> forall i :: 0 <= i < |users| ==> users[i].id != id
  {
    if |users| == 0 then None
    else if users[0].id == id then Some(users[0])
    else UserById(users[1..], id)
  }

  /** The position of the first `users` row with this email, or `|users|` when there is none. */
  function EmailPosition(users: seq<User>, email: string): (k: nat)
    ensures k <= |users|
    ensures forall j :: 0 <= j < k ==> users[j].email != email
    ensures k < |users| ==> users[k].email == email
  {
    if |users| == 0 then 0
    else if users[0].email == email then 0
    else
      var k := EmailPosition(users[1..], email);
      assert forall j :: 1 <= j < k + 1 ==> users[j] == users[1..][j - 1];
      k + 1
  }

  /** `rows[0]` of `SELECT * FROM users WHERE email = $1`: the first row with this email. */
  function UserByEmail(users: seq<User>, email: string): (r: Option<User>)
    ensures r.None? <==> forall i :: 0 <= i < |users| ==> users[i].email != email
    ensures forall k :: 0 <= k < |users| && users[k].email == email && (forall j :: 0 <= j < k ==> users[j].email != email) ==>
      r == Some(users[k])
  {
    var k := EmailPosition(users, email);
    if k < |users| then Some(users[k]) else None
  }

  /** A row of `vehicles` (its id is the key of the table map). Prices are whole currency units. */
  datatype Vehicle = Vehicle(
    name: string,
    vehicleType: string,
    registrationNumber: string,
    dailyRentPrice: int,
    availabilityStatus: string)

  /** A row of `bookings` (its id is the key of the table map). Dates are day numbers since an epoch. */
  datatype Booking = Booking(
    customerId: int,
    vehicleId: int,
    rentStartDate: int,
    rentEndDate: int,
    totalPrice: int,
    status: string)

  const Available := "available"
  const Booked := "booked"

  const Active := "active"
  const Cancelled := "cancelled"
  const Returned := "returned"

  const Admin := "admin"
  const Customer := "customer"
}

=== FILE: text.dfy ===
/**
 * The string operations the services rely on: `String.prototype.split` and
 * `Array.prototype.join` with a non-empty separator, decimal rendering of the
 * numbers interpolated into SQL placeholders, and `Number(text)` applied to an
 * identifier taken from a URL parameter.
 */
module Text {
  import opened Wrappers

  /** `s.split(sep)`: the pieces between non-overlapping occurrences of `sep`, left to right. */
  function Split(s: string, sep: string): (pieces: seq<string>)
    requires |sep| > 0
    ensures |pieces| >= 1
    ensures |sep| == 1 ==> forall i :: 0 <= i < |pieces| ==> sep[0] !in pieces[i]
    decreases |s|
  {
    if |s| < |sep| then [s]
    else if s[..|sep|] == sep then [""] + Split(s[|sep|..], sep)
    else
      var rest := Split(s[1..], sep);
      [[s[0]] + rest[0]] + rest[1..]
  }

  /**
   * `xs.join(sep)`: the pieces in order with `sep` between neighbours; the
   * first piece starts the result, and no pieces give the empty string.
   */
  function Join(xs: seq<string>, sep: string): (r: string)
    ensures |xs| > 0 ==> xs[0] <= r
    ensures |xs| == 0 ==> r == ""
  {
    if |xs| == 0 then ""
    else if |xs| == 1 then xs[0]
    else xs[0] + sep + Join(xs[1..], sep)
  }

  /** The summed length of the pieces. */
  function TotalLength(xs: seq<string>): nat
  {
    if |xs| == 0 then 0 else |xs[0]| + TotalLength(xs[1..])
  }

  /** A join is as long as its pieces together plus one separator per gap. */
  lemma {:induction false} JoinLength(xs: seq<string>, sep: string)
    ensures |Join(xs, sep)| == TotalLength(xs) + (if |xs| == 0 then 0 else (|xs| - 1) * |sep|)
    decreases |xs|
  {
    if |xs| > 1 {
      JoinLength(xs[1..], sep);
    }
  }

  /** Joining one more piece appends the separator and the piece. */
  lemma {:induction false} JoinSnoc(xs: seq<string>, x: string, sep: string)
    requires |xs| >= 1
    ensures Join(xs + [x], sep) == Join(xs, sep) + sep + x
    decreases |xs|
  {
    if |xs| == 1 {
      assert (xs + [x])[1..] == [x];
    } else {
      assert (xs + [x])[1..] == xs[1..] + [x];
      JoinSnoc(xs[1..], x, sep);
    }
  }

  /** Prepending to the first piece prepends to the joined string. */
  lemma JoinConsFirst(c: char, xs: seq<string>, sep: string)
    requires |xs| >= 1
    ensures Join([[c] + xs[0]] + xs[1..], sep) == [c] + Join(xs, sep)
  {
  }

  /** Joining the pieces of a split with the same separator gives back the string. */
  lemma {:induction false} JoinSplit(s: string, sep: string)
    requires |sep| > 0
    ensures Join(Split(s, sep), sep) == s
    decreases |s|
  {
    if |s| < |sep| {
    } else if s[..|sep|] == sep {
      var rest := Split(s[|sep|..], sep);
      assert Split(s, sep) == [""] + rest;
      assert ([""] + rest)[1..] == rest;
      assert Join([""] + rest, sep) == "" + sep + Join(rest, sep);
      JoinSplit(s[|sep|..], sep);
      assert s == s[..|sep|] + s[|sep|..];
    } else {
      var rest := Split(s[1..], sep);
      assert Split(s, sep) == [[s[0]] + rest[0]] + rest[1..];
      JoinSplit(s[1..], sep);
      JoinConsFirst(s[0], rest, sep);
      assert s == [s[0]] + s[1..];
    }
  }

  /** A string in which the separator's first character never occurs splits into itself. */
  lemma {:induction false} SplitWithoutSeparator(x: string, sep: string)
    requires |sep| > 0
    requires sep[0] !in x
    ensures Split(x, sep) == [x]
    decreases |x|
  {
    if |x| < |sep| {
    } else {
      assert x[..|sep|][0] == x[0] != sep[0];
      SplitWithoutSeparator(x[1..], sep);
      assert [x[0]] + x[1..] == x;
    }
  }

  /** A separator-free prefix followed by the separator is split off as one piece. */
  lemma {:induction false} SplitAfterPiece(x: string, sep: string, t: string)
    requires |sep| > 0
    requires sep[0] !in x
    ensures Split(x + sep + t, sep) == [x] + Split(t, sep)
    decreases |x|
  {
    var s := x + sep + t;
    if |x| == 0 {
      assert s == sep + t;
      assert s[..|sep|] == sep;
      assert s[|sep|..] == t;
    } else {
      assert s[..|sep|][0] == x[0] != sep[0];
      assert s[1..] == x[1..] + sep + t;
      SplitAfterPiece(x[1..], sep, t);
      assert [x[0]] + x[1..] == x;
    }
  }

  /** Splitting a join gives back the pieces when no piece holds the separator's first character. */
  lemma {:induction false} SplitJoin(xs: seq<string>, sep: string)
    requires |sep| > 0 && |xs| >= 1
    requires forall i :: 0 <= i < |xs| ==> sep[0] !in xs[i]
    ensures Split(Join(xs, sep), sep) == xs
    decreases |xs|
  {
    if |xs| == 1 {
      SplitWithoutSeparator(xs[0], sep);
    } else {
      SplitJoin(xs[1..], sep);
      SplitAfterPiece(xs[0], sep, Join(xs[1..], sep));
      assert [xs[0]] + xs[1..] == xs;
    }
  }

  predicate IsDigit(c: char) {
    '0' <= c <= '9'
  }

  /** A non-empty run of decimal digits. */
  predicate IsNumeral(s: string) {
    |s| >= 1 && forall i :: 0 <= i < |s| ==> IsDigit(s[i])
  }

  function DigitChar(d: nat): (c: char)
    requires d < 10
    ensures IsDigit(c)
  {
    ('0' as int + d) as char
  }

  /** The value of a run of decimal digits, most significant first. */
  function DigitsValue(s: string): nat
    requires forall i :: 0 <= i < |s| ==> IsDigit(s[i])
  {
    if |s| == 0 then 0
    else
      var last := s[|s| - 1];
      assert IsDigit(last);
      DigitsValue(s[..|s| - 1]) * 10 + (last as int - '0' as int)
  }

  /** The decimal rendering of a natural number, as `${n}` produces it. */
  function NatToString(n: nat): (s: string)
    ensures IsNumeral(s)
  {
    if n < 10 then [DigitChar(n)] else NatToString(n / 10) + [DigitChar(n % 10)]
  }

  /** The decimal rendering of an integer, with a leading minus sign when negative. */
  function IntToString(i: int): string
  {
    if i < 0 then "-" + NatToString(-i) else NatToString(i)
  }

  /**
   * `Number(text)` followed by `isNaN`, for identifiers: the empty string is 0,
   * an optional sign followed by decimal digits is that integer, and anything
   * else is NaN, modelled as `None`.
   */
  function ParseNumber(text: string): (r: Option<int>)
    ensures r.Some? && text != "" && text[0] != '-' ==> r.value >= 0
    ensures r.None? ==> text != "" && !IsNumeral(text)
  {
    if |text| == 0 then Some(0)
    else if (text[0] == '-' || text[0] == '+') && IsNumeral(text[1..]) then
      var magnitude: int := DigitsValue(text[1..]);
      Some(if text[0] == '-' then -magnitude else magnitude)
    else if IsNumeral(text) then Some(DigitsValue(text))
    else None
  }

  /** The empty string reads as 0, and a numeral as the number its digits denote. */
  lemma ParseNumeral(text: string)
    ensures text == "" ==> ParseNumber(text) == Some(0)
    ensures IsNumeral(text) ==> ParseNumber(text) == Some(DigitsValue(text))
  {
  }

  /** A sign followed by a numeral reads as the signed number: "+5" is 5 and "-007" is -7. */
  lemma ParseSignedNumeral(text: string)
    requires text != "" && (text[0] == '-' || text[0] == '+') && IsNumeral(text[1..])
    ensures ParseNumber(text) == Some(if text[0] == '-' then -(DigitsValue(text[1..]) as int) else DigitsValue(text[1..]) as int)
  {
  }

  /** The inputs read as numbers: the empty string, a numeral, or a sign followed by a numeral. */
  predicate NumberText(text: string) {
    text == "" || IsNumeral(text) || ((text[0] == '-' || text[0] == '+') && IsNumeral(text[1..]))
  }

  /** NaN exactly for the inputs that are not number text: "abc", "-", "+" and "1a" are all NaN. */
  lemma ParseNumberNaN(text: string)
    ensures ParseNumber(text).None? <==> !NumberText(text)
  {
  }

  /** Concrete readings of identifiers that are, and are not, numbers. */
  lemma ParseNumberExamples()
    ensures ParseNumber("abc").None? && ParseNumber("-").None? && ParseNumber("+").None? && ParseNumber("1a").None?
    ensures ParseNumber("+5") == Some(5) && ParseNumber("-007") == Some(-7) && ParseNumber("42") == Some(42)
  {
    assert !IsDigit('a');
    assert "abc"[0] == 'a' && "1a"[1] == 'a';
    assert "+5"[1..] == "5" && "-007"[1..] == "007";
    assert "42"[..1] == "4";
    assert "007"[..2] == "00" && "00"[..1] == "0";
  }

  /** Reading back a rendered natural number gives the number. */
  lemma {:induction false} DigitsValueOfNatToString(n: nat)
    ensures DigitsValue(NatToString(n)) == n
  {
    var s := NatToString(n);
    if n >= 10 {
      DigitsValueOfNatToString(n / 10);
      assert s[..|s| - 1] == NatToString(n / 10);
    }
  }

  /** `Number(String(i)) == i`: the decimal rendering of an integer parses back to it. */
  lemma IntToStringParses(i: int)
    ensures ParseNumber(IntToString(i)) == Some(i)
  {
    if i < 0 {
      var s := "-" + NatToString(-i);
      DigitsValueOfNatToString(-i);
      assert s[1..] == NatToString(-i);
      assert !IsNumeral(s) by { assert !IsDigit(s[0]); }
    } else {
      var s := NatToString(i);
      DigitsValueOfNatToString(i);
      assert IsDigit(s[0]);
    }
  }
}

=== FILE: users.dfy ===
/** The user service's `getUsers` and `updateUser`. */
module Users {
  import opened Wrappers
  import opened Schema
  import opened PartialUpdate
  import Text

  /** The columns a user update may write; `password` is not among them. */
  const AllowedFields: seq<string> := ["name", "email", "phone", "role"]

  /** The columns `getUsers` selects and `updateUser` returns. */
  const ProfileColumns: seq<string> := ["id", "name", "email", "phone", "role"]

  datatype UserError = InvalidUserId | NoValidFields

  function Message(e: UserError): string {
    match e
    case InvalidUserId => "Invalid user ID"
    case NoValidFields => "No valid fields provided for update"
  }

  /** `getUsers()`: every row of `users`, in table order, without its password. */
  function GetUsers(users: seq<User>): (profiles: seq<UserProfile>)
    ensures |profiles| == |users|
    ensures forall i :: 0 <= i < |users| ==>
      && profiles[i].id == users[i].id
      && profiles[i].name == users[i].name
      && profiles[i].email == users[i].email
      && profiles[i].phone == users[i].phone
      && profiles[i].role == users[i].role
  {
    seq(|users|, i requires 0 <= i < |users| => ProfileOf(users[i]))
  }

  /** Two tables that differ only in their passwords list identically: no password reaches the listing. */
  lemma GetUsersIgnoresPasswords(a: seq<User>, b: seq<User>)
    requires |a| == |b|
    requires forall i :: 0 <= i < |a| ==> a[i].(password := b[i].password) == b[i]
    ensures GetUsers(a) == GetUsers(b)
  {
  }

  /**
   * `updateUser(userId, payload)`: the id must be numeric and at least one
   * payload key an allowed column. No lookup precedes the update, so an
   * unknown id still yields a statement (which matches no row).
   */
  function UpdateUser<V(!new)>(userIdText: string, payload: seq<(string, V)>): (r: Result<Statement<V>, UserError>)
    ensures Text.ParseNumber(userIdText).None? ==> r == Failure(InvalidUserId)
    ensures Text.ParseNumber(userIdText).Some? && !HasAllowedKey(payload, AllowedFields) ==> r == Failure(NoValidFields)
    ensures r.Success? <==> Text.ParseNumber(userIdText).Some? && HasAllowedKey(payload, AllowedFields)
    ensures r.Success? ==>
      var entries := FilterAllowed(payload, AllowedFields);
      var stmt := r.value;
      && |entries| >= 1
      && stmt.table == "users"
      && stmt.returning == ProfileColumns && "password" !in stmt.returning
      && stmt.setClause == Text.Join(Assignments(entries), ", ")
      && stmt.wherePlaceholder == Placeholder(|entries| + 1)
      && |stmt.params| == |entries| + 1
      && (forall i :: 0 <= i < |entries| ==> stmt.params[i] == Value(entries[i].1))
      && stmt.params[|entries|] == RowId(Text.ParseNumber(userIdText).value)
  {
    match Text.ParseNumber(userIdText)
    case None => Failure(InvalidUserId)
    case Some(id) =>
      var entries := FilterAllowed(payload, AllowedFields);
      FilterAllowedNonEmpty(payload, AllowedFields);
      if |entries| == 0 then Failure(NoValidFields)
      else
        assert Assignments(entries) + [] == Assignments(entries);
        Success(BuildUpdate("users", entries, id, [], ProfileColumns))
  }

  /** An id that is not number text is refused as invalid, whatever the payload. */
  lemma NonNumericUserIdRefused<V(!new)>(userIdText: string, payload: seq<(string, V)>)
    requires !Text.NumberText(userIdText)
    ensures UpdateUser(userIdText, payload) == Failure(InvalidUserId)
  {
    Text.ParseNumberNaN(userIdText);
  }

  /** A successful update is the statement built from the allowed entries and the parsed id. */
  lemma UpdateUserBuilds<V(!new)>(userIdText: string, payload: seq<(string, V)>)
    requires UpdateUser(userIdText, payload).Success?
    ensures Text.ParseNumber(userIdText).Some?
    ensures UpdateUser(userIdText, payload).value
         == BuildUpdate("users", FilterAllowed(payload, AllowedFields), Text.ParseNumber(userIdText).value, [], ProfileColumns)
  {
  }

  lemma AllowedFieldsArePlain()
    ensures forall k :: k in AllowedFields ==> PlainName(k)
  {
  }

  /**
   * A user update reads back as the allowed payload entries in payload order,
   * each bound to its own positional value, with the user id bound to the
   * WHERE placeholder; no assignment writes `password`.
   */
  lemma UserUpdateReadsBack<V(!new)>(userIdText: string, payload: seq<(string, V)>)
    requires UpdateUser(userIdText, payload).Success?
    ensures
      var stmt := UpdateUser(userIdText, payload).value;
      var entries := FilterAllowed(payload, AllowedFields);
      ReadsBack(stmt, entries, Text.ParseNumber(userIdText).value)
  {
    var entries := FilterAllowed(payload, AllowedFields);
    UpdateUserBuilds(userIdText, payload);
    AllowedFieldsArePlain();
    AllowedEntriesArePlain(payload, AllowedFields);
    StatementReadsBack(entries, Text.ParseNumber(userIdText).value);
  }

  /**
   * What reading a user statement back yields: split at ", ", one piece per
   * entry naming its allowed column (never `password`) in order and binding
   * its own value, then the id at the WHERE placeholder.
   */
  ghost predicate ReadsBack<V>(stmt: Statement<V>, entries: seq<(string, V)>, id: int) {
    var pieces := Text.Split(stmt.setClause, ", ");
    var n := |entries|;
    && |pieces| == n
    && |stmt.params| == n + 1
    && (forall i :: 0 <= i < n ==>
          && ColumnOf(pieces[i]) == entries[i].0
          && ColumnOf(pieces[i]) in AllowedFields
          && ColumnOf(pieces[i]) != "password"
          && PlaceholderIndex(SlotOf(pieces[i])) == Some(i + 1)
          && stmt.params[i] == Value(entries[i].1))
    && PlaceholderIndex(stmt.wherePlaceholder) == Some(n + 1)
    && stmt.params[n] == RowId(id)
  }

  /** The statement built for a user reads back as its allowed entries and the id. */
  lemma StatementReadsBack<V>(entries: seq<(string, V)>, id: int)
    requires |entries| >= 1
    requires forall i :: 0 <= i < |entries| ==> entries[i].0 in AllowedFields && PlainName(entries[i].0)
    ensures ReadsBack(BuildUpdate("users", entries, id, [], ProfileColumns), entries, id)
  {
    SetClauseReadsBack("users", entries, id, [], ProfileColumns);
  }
}

=== FILE: vehicles.dfy ===
/** The vehicle service's `getAllVehicles` and `updateSingleVehicle`. */
module Vehicles {
  import opened Wrappers
  import opened Schema
  import opened PartialUpdate
  import Text

  /** The columns a vehicle update may write. */
  const AllowedFields: seq<string> :=
    ["vehicle_name", "type", "registration_number", "daily_rent_price", "availability_status"]

  /** The assignment every vehicle update appends after the payload's. */
  const UpdatedAtNow := "updated_at = NOW()"

  datatype VehicleError = InvalidVehicleId | VehicleNotFound | NoValidFields

  function Message(e: VehicleError): string {
    match e
    case InvalidVehicleId => "Invalid vehicle ID"
    case VehicleNotFound => "Vehicle not found"
    case NoValidFields => "No valid fields provided for update"
  }

  /** What `getAllVehicles` returns. */
  datatype Listing = Listing(message: string, data: seq<Vehicle>)

  /** `getAllVehicles()`: every row of the vehicles table, with a message saying whether there were any. */
  function GetAllVehicles(rows: seq<Vehicle>): (r: Listing)
    ensures r.message == "Vehicles retrieved successfully" <==> |rows| > 0
    ensures r.message == "No vehicles found" <==> |rows| == 0
    ensures r.data == rows
  {
    if |rows| > 0 then Listing("Vehicles retrieved successfully", rows)
    else Listing("No vehicles found", [])
  }

  /**
   * `updateSingleVehicle(vehicleId, payload)`: the id must be numeric and name
   * an existing vehicle, and at least one payload key must be an allowed
   * column; the statement then sets the allowed entries and `updated_at`.
   */
  function UpdateSingleVehicle<V(!new)>(vehicles: map<int, Vehicle>, vehicleIdText: string, payload: seq<(string, V)>): (r: Result<Statement<V>, VehicleError>)
    ensures Text.ParseNumber(vehicleIdText).None? ==> r == Failure(InvalidVehicleId)
    ensures Text.ParseNumber(vehicleIdText).Some? && Text.ParseNumber(vehicleIdText).value !in vehicles ==>
      r == Failure(VehicleNotFound)
    ensures Text.ParseNumber(vehicleIdText).Some? && Text.ParseNumber(vehicleIdText).value in vehicles && !HasAllowedKey(payload, AllowedFields) ==>
      r == Failure(NoValidFields)
    ensures r.Success? <==>
      Text.ParseNumber(vehicleIdText).Some? && Text.ParseNumber(vehicleIdText).value in vehicles && HasAllowedKey(payload, AllowedFields)
    ensures r.Success? ==>
      var entries := FilterAllowed(payload, AllowedFields);
      var stmt := r.value;
      && |entries| >= 1
      && stmt.table == "vehicles" && stmt.returning == ["*"]
      && stmt.setClause == Text.Join(Assignments(entries), ", ") + ", " + UpdatedAtNow
      && stmt.wherePlaceholder == Placeholder(|entries| + 1)
      && |stmt.params| == |entries| + 1
      && (forall i :: 0 <= i < |entries| ==> stmt.params[i] == Value(entries[i].1))
      && stmt.params[|entries|] == RowId(Text.ParseNumber(vehicleIdText).value)
  {
    match Text.ParseNumber(vehicleIdText)
    case None => Failure(InvalidVehicleId)
    case Some(id) =>
      if id !in vehicles then Failure(VehicleNotFound)
      else
        var entries := FilterAllowed(payload, AllowedFields);
        FilterAllowedNonEmpty(payload, AllowedFields);
        if |entries| == 0 then Failure(NoValidFields)
        else
          Text.JoinSnoc(Assignments(entries), UpdatedAtNow, ", ");
          Success(BuildUpdate("vehicles", entries, id, [UpdatedAtNow], ["*"]))
  }

  /** An id that is not number text is refused as invalid, whatever the table or payload. */
  lemma NonNumericVehicleIdRefused<V(!new)>(vehicles: map<int, Vehicle>, vehicleIdText: string, payload: seq<(string, V)>)
    requires !Text.NumberText(vehicleIdText)
    ensures UpdateSingleVehicle(vehicles, vehicleIdText, payload) == Failure(InvalidVehicleId)
  {
    Text.ParseNumberNaN(vehicleIdText);
  }

  /** A successful update is the statement built from the allowed entries, `updated_at` and the parsed id. */
  lemma UpdateSingleVehicleBuilds<V(!new)>(vehicles: map<int, Vehicle>, vehicleIdText: string, payload: seq<(string, V)>)
    requires UpdateSingleVehicle(vehicles, vehicleIdText, payload).Success?
    ensures Text.ParseNumber(vehicleIdText).Some?
    ensures UpdateSingleVehicle(vehicles, vehicleIdText, payload).value
         == BuildUpdate("vehicles", FilterAllowed(payload, AllowedFields), Text.ParseNumber(vehicleIdText).value,
                        [UpdatedAtNow], ["*"])
  {
  }

  lemma AllowedFieldsArePlain()
    ensures forall k :: k in AllowedFields ==> PlainName(k)
  {
  }

  /**
   * A vehicle update reads back as the allowed payload entries in payload
   * order, each bound to its own positional value, then `updated_at = NOW()`,
   * with the vehicle id bound to the WHERE placeholder.
   */
  lemma VehicleUpdateReadsBack<V(!new)>(vehicles: map<int, Vehicle>, vehicleIdText: string, payload: seq<(string, V)>)
    requires UpdateSingleVehicle(vehicles, vehicleIdText, payload).Success?
    ensures
      var stmt := UpdateSingleVehicle(vehicles, vehicleIdText, payload).value;
      var entries := FilterAllowed(payload, AllowedFields);
      ReadsBack(stmt, entries, Text.ParseNumber(vehicleIdText).value)
  {
    var entries := FilterAllowed(payload, AllowedFields);
    UpdateSingleVehicleBuilds(vehicles, vehicleIdText, payload);
    AllowedFieldsArePlain();
    AllowedEntriesArePlain(payload, AllowedFields);
    StatementReadsBack(entries, Text.ParseNumber(vehicleIdText).value);
  }

  /**
   * What reading a vehicle statement back yields: split at ", ", one piece per
   * entry naming its allowed column in order and binding its own value, then
   * `updated_at = NOW()`, then the id at the WHERE placeholder.
   */
  ghost predicate ReadsBack<V>(stmt: Statement<V>, entries: seq<(string, V)>, id: int) {
    var pieces := Text.Split(stmt.setClause, ", ");
    var n := |entries|;
    && |pieces| == n + 1
    && |stmt.params| == n + 1
    && (forall i :: 0 <= i < n ==>
          && ColumnOf(pieces[i]) == entries[i].0
          && ColumnOf(pieces[i]) in AllowedFields
          && PlaceholderIndex(SlotOf(pieces[i])) == Some(i + 1)
          && stmt.params[i] == Value(entries[i].1))
    && pieces[n] == UpdatedAtNow
    && PlaceholderIndex(stmt.wherePlaceholder) == Some(n + 1)
    && stmt.params[n] == RowId(id)
  }

  /** The statement built for a vehicle reads back as its allowed entries, `updated_at` and the id. */
  lemma StatementReadsBack<V>(entries: seq<(string, V)>, id: int)
    requires |entries| >= 1
    requires forall i :: 0 <= i < |entries| ==> entries[i].0 in AllowedFields && PlainName(entries[i].0)
    ensures ReadsBack(BuildUpdate("vehicles", entries, id, [UpdatedAtNow], ["*"]), entries, id)
  {
    SetClauseReadsBack("vehicles", entries, id, [UpdatedAtNow], ["*"]);
    var stmt := BuildUpdate("vehicles", entries, id, [UpdatedAtNow], ["*"]);
    var pieces := Text.Split(stmt.setClause, ", ");
    assert pieces[|entries|..] == [UpdatedAtNow];
    assert pieces[|entries|] == pieces[|entries|..][0];
  }
}

=== FILE: wrappers.dfy ===
/** Option and Result, shared by every module of the model. */
module Wrappers {

  /** A value that may be absent: JavaScript's `undefined` / SQL's empty result. */
  datatype Option<+T> = None | Some(value: T)

  /** The outcome of a service call: a value, or the error it throws. */
  datatype Result<+R, +E> = Success(value: R) | Failure(error: E)
}
